=== FILE: README.md ===
# Ledger core of Spring-Account-Z, in Dafny

This project models the ledger core of a Spring banking service. It covers three parts:

- the balance primitives an account applies to itself (`AccountEntity`);
- the money-movement protocol (`TransactionService`): deposit, withdraw, the simple and the identity-checked transfer, cancellation, the failure record, and the date window of history queries;
- account creation (`AccountService`): the per-owner limit and sequential numbering.

The persisted data is one immutable `State`:

- `users`: a map from user id to the identity fields;
- `accounts`: a sequence of accounts, where the position is the generated account id, so the highest-id account is the last one;
- `txs`: a map from transaction id to record.

Each service method is a pure function. It returns `Ok(Receipt(newState, record))` or `Err(code)`. An error carries no state, because the source wraps every method in one database transaction. So a failure leaves balances and records exactly as they were; for example, a cancel whose receiver debit fails has no sender credit either.

Inputs from outside the ledger are parameters:

- the caller's user id, which the source reads from the security context;
- `now`;
- `now - 1 year`;
- the fresh transaction id, which the source generates as a random UUID, with the precondition that it is not yet used;
- the outcome of the password comparison.

Amount bounds that the request bodies impose before a service runs become preconditions:

- [1, 10^9] for deposit, withdraw and cancel;
- [10^6, 10^9] for the identity-checked transfer.

Modules and files:

- `types.dfy` (`Types`): entities, the error codes and the result type.
- `account_entity.dfy` (`AccountEntity`): `saveMoney`, `useBalance`, `cancelBalance`.
- `decimal.dfy` (`Decimal`): `Integer.parseInt`, `Integer.toString` and 32-bit `+ 1`, which account numbering uses.
- `ledger.dfy` (`Ledger`): `findByAccountNumber` (which finds no account, one account, or fails when several carry the number), `countByUser`, the total balance, the invariant (balances ≥ 0, account numbers increasing with the id) and balance-move facts.
- `account_service.dfy` (`AccountService`): account creation.
- `transaction_service.dfy` (`TransactionService`): the money-movement operations and their validators.
- `transaction_properties.dfy` (`TransactionProperties`): properties over every call and over sequences of calls.

Behaviour kept as written (none of it is corrected):

- Transfers check neither that the sender account belongs to the caller nor that it is ACTIVATED.
- Cancel does not check that the receiver matches the original record.
- Cancel does not check that the caller owns the sender account, nor that the caller made the original record. Only the record's account, amount, age and result are checked.
- Cancel does not check the status of either account. Money can be moved back into or out of an UNREGISTERED account.
- Cancel does not check that the original record succeeded. `CancelOfFailureRecordMovesMoney` shows the consequence: cancelling the FAIL record of a transfer that never happened moves money from receiver to sender.
- Cancel does not check the record's type either. The CANCEL record a cancellation appends has result SUCCESS and passes every check. Cancelling it reverses the same transfer a second time, as `CancelOfCancelRecordRepeatsReversal` shows. So cancellation is one-shot per record, not per transfer.
- The 5-account limit counts closed accounts.
- The simple transfer has no amount bound of its own. A negative amount passes the sender debit and is then refused by the receiver credit with NOT_MINUS_MONEY.
- The identity-checked transfer computes the password match first, but reports it last.
- A birthday is optional at sign-up and in the large-transfer request. Once the names match, a missing birthday on either side makes the comparison throw a NullPointerException (`NullPointer`), not UNMATCHED_BIRTHDAY.
- The history date range takes two optional dates. A missing one throws a NullPointerException (`NullPointer`).
- An account-number lookup returns at most one row. When two accounts carry the same number, the lookup fails (`NonUniqueResult`) rather than choosing one. In a valid ledger this cannot happen. But the numbering's int increment wraps after 2147483647 to "-2147483648", so numbers can repeat in a long enough history.
- New account numbers are `parseInt(last) + 1` written with `+ ""`, with no padding to a fixed width.
- The open status is ACTIVATED.

## Model

| member | source | states |
|---|---|---|
| AccountEntity.SaveMoney | src/main/java/com/example/accountz/persist/entity/AccountEntity.java:61-66 | fails with NOT_MINUS_MONEY exactly when the amount is negative; otherwise only the balance changes, rising by the amount, so a non-negative balance stays non-negative |
| AccountEntity.UseBalance | src/main/java/com/example/accountz/persist/entity/AccountEntity.java:68-74 | fails with AMOUNT_EXCEED_BALANCE exactly when the amount exceeds the balance; otherwise only the balance changes, falling by the amount, and the result is never negative |
| AccountEntity.CancelBalance | src/main/java/com/example/accountz/persist/entity/AccountEntity.java:76-82 | fails with INVALID_REQUEST exactly when the amount is negative; otherwise only the balance changes, rising by the amount |
| AccountEntity.UseThenCancelRestores | src/main/java/com/example/accountz/persist/entity/AccountEntity.java:68-82 | a debit of 0 ≤ a ≤ balance followed by a reversal of a gives back the original account |
| AccountEntity.UseBalanceBoundary | src/main/java/com/example/accountz/persist/entity/AccountEntity.java:69-72 | debiting balance + 1 fails and debiting the whole balance leaves 0 |
| Decimal.ParseInt | src/main/java/com/example/accountz/service/AccountService.java:49-51 | accepts exactly an optional sign followed by one or more digits, within the 32-bit range; plain digits give their decimal value, a leading '+' is ignored, and a leading '-' negates |
| Decimal.IntToString | src/main/java/com/example/accountz/service/AccountService.java:51 | the canonical text: exactly "0" for 0, digits with no leading zero for other non-negatives, a '-' and no leading zero for negatives |
| Decimal.Int32Increment | src/main/java/com/example/accountz/service/AccountService.java:48-51 | `+ 1` on a 32-bit int: stays in range and equals v + 1 modulo 2^32, so the largest int wraps to the smallest |
| Decimal.IntToStringRoundTrip | src/main/java/com/example/accountz/service/AccountService.java:49-51 | parseInt of the decimal text of any 32-bit int gives that int back |
| Ledger.FindByAccountNumber | src/main/java/com/example/accountz/persist/repository/AccountRepository.java:17 | finds nothing exactly when no account carries the number; finds one account exactly when it is the only one carrying the number; fails exactly when two or more carry it |
| Ledger.CountByUser | src/main/java/com/example/accountz/persist/repository/AccountRepository.java:13 | counts at most all accounts; the count is 0 exactly when the user owns none, and equals the number of accounts exactly when the user owns all of them |
| Ledger.FindUnique | src/main/java/com/example/accountz/persist/repository/AccountRepository.java:17 | with unique numbers a lookup never fails, and it finds account i exactly when i carries the number |
| Ledger.CountAppend | src/main/java/com/example/accountz/persist/repository/AccountRepository.java:13 | appending an account raises its owner's count by exactly one and leaves every other user's count unchanged; with the empty ledger counting 0, this fixes the count |
| Ledger.CountIgnoresStatus | src/main/java/com/example/accountz/service/AccountService.java:55-58 | changing an account's status leaves every owner's account count unchanged |
| Ledger.TotalOfMoved | src/main/java/com/example/accountz/service/TransactionService.java:197-198 | moving two balances by di and dj changes the sum of all balances by exactly di + dj |
| AccountService.CheckAccountLimit | src/main/java/com/example/accountz/service/AccountService.java:55-59 | refuses with MAX_5_LIMIT_ACCOUNTS exactly when the owner already holds 5 or more accounts |
| AccountService.CreateAccountNumber | src/main/java/com/example/accountz/service/AccountService.java:46-53 | with no accounts the number is "1000000000"; otherwise it is exactly the canonical text of the 32-bit successor of the highest-id account's number, and fails with NumberFormatException exactly when that number does not parse |
| AccountService.CreateAccount | src/main/java/com/example/accountz/service/AccountService.java:26-44 | USER_NOT_FOUND iff the user is unknown, then MAX_5_LIMIT_ACCOUNTS iff the count is ≥ 5, then NumberFormatException iff the last number does not parse; it succeeds in every other case, and a success appends exactly one ACTIVATED, zero-balance account owned by the caller, and the owner's count rises by one and stays ≤ 5 |
| AccountService.CreateAccountSucceeds | src/main/java/com/example/accountz/service/AccountService.java:30-43 | in a valid state creation succeeds iff the user exists and holds fewer than 5 accounts |
| AccountService.ClosedAccountsStillCount | src/main/java/com/example/accountz/service/AccountService.java:55-58 | an owner with 5 accounts is refused even after one of them is marked UNREGISTERED |
| AccountService.NewNumberExceedsAll | src/main/java/com/example/accountz/service/AccountService.java:46-52 | when numbers increase with the id and +1 cannot overflow, the new number is above every existing number |
| AccountService.CreateAccountKeepsValid | src/main/java/com/example/accountz/service/AccountService.java:34-52 | creation keeps all balances non-negative and account numbers strictly increasing, hence unique |
| AccountService.NumberingWrapsAtIntMax | src/main/java/com/example/accountz/service/AccountService.java:48-51 | after the account numbered "2147483647" the next number is "-2147483648" |
| AccountService.FirstAccountIsSeeded | src/main/java/com/example/accountz/service/AccountService.java:52 | the first account ever created gets number "1000000000" |
| TransactionService.SaveValidateMoney | src/main/java/com/example/accountz/service/TransactionService.java:63-73 | USER_ACCOUNT_UNMATCHED iff the caller does not own the account, else ACCOUNT_ALREADY_UNREGISTERED iff it is not ACTIVATED, else passes |
| TransactionService.ValidateUseBalance | src/main/java/com/example/accountz/service/TransactionService.java:102-115 | the ownership and status checks in that order, then AMOUNT_EXCEED_BALANCE iff the balance is below the amount |
| TransactionService.ValidateUserInfo | src/main/java/com/example/accountz/service/TransactionService.java:212-229 | reports the first failure in the fixed order name, birthday, email, password; a missing birthday on either side, after a name match, throws NullPointerException; passes iff all four match and both birthdays are present |
| TransactionService.ValidateReceiver | src/main/java/com/example/accountz/service/TransactionService.java:231-236 | passes iff the receiver is ACTIVATED, else RECEIVER_ACCOUNT_UNREGISTERED |
| TransactionService.ValidateCancelBalance | src/main/java/com/example/accountz/service/TransactionService.java:315-339 | TRANSACTION_ACCOUNT_UNMATCHED, NOT_ALLOWED_SEPARATE_CANCEL, TOO_OLD_ORDER_TO_CANCEL (strictly before now − 1 year), EXPIRED_TRANSACTION, each iff it is the first failing check |
| TransactionService.SaveTransaction | src/main/java/com/example/accountz/service/TransactionService.java:117-144 | appends one record under a fresh id, leaves accounts and older records untouched, and snapshots the originating account's current balance |
| TransactionService.SaveFailedUseTransaction | src/main/java/com/example/accountz/service/TransactionService.java:146-169 | ACCOUNT_NOT_FOUND when the first lookup finds nothing, or the first finds one account and the second finds nothing; the lookup failure when either finds several accounts (in the same order); otherwise appends one USE/FAIL record and changes no account |
| TransactionService.SaveMoney | src/main/java/com/example/accountz/service/TransactionService.java:38-61 | errors in the order USER_NOT_FOUND, ACCOUNT_NOT_FOUND or the lookup failure on a repeated number, USER_ACCOUNT_UNMATCHED, ACCOUNT_ALREADY_UNREGISTERED, each iff it is the first failing check; a success raises only that balance by the amount and appends one USE/SUCCESS record whose snapshot is the new balance |
| TransactionService.UseBalance | src/main/java/com/example/accountz/service/TransactionService.java:75-115 | the same order plus AMOUNT_EXCEED_BALANCE; a success lowers only that balance by the amount, keeps it ≥ 0, and appends one USE/SUCCESS record with the new balance |
| TransactionService.MoveMoney | src/main/java/com/example/accountz/service/TransactionService.java:257-258 | debit then credit: AMOUNT_EXCEED_BALANCE iff the amount exceeds the sender's balance, else NOT_MINUS_MONEY iff it is negative; a success moves exactly the amount from sender to receiver |
| TransactionService.UnderMillionSendMoney | src/main/java/com/example/accountz/service/TransactionService.java:238-270 | USER_NOT_FOUND, ACCOUNT_NOT_FOUND or the lookup failure (sender first, then receiver), RECEIVER_ACCOUNT_UNREGISTERED, AMOUNT_EXCEED_BALANCE, NOT_MINUS_MONEY in that order, with no check on the sender's owner or status; a success moves the amount and records USE/SUCCESS against the sender with its new balance |
| TransactionService.OverMillionSendMoney | src/main/java/com/example/accountz/service/TransactionService.java:171-210 | after the three lookups the identity check runs first and its first mismatch is the error; once it passes the call is exactly the simple transfer, so the receiver is checked only after identity |
| TransactionService.CancelBalance | src/main/java/com/example/accountz/service/TransactionService.java:272-313 | lookups (user, record, sender account, receiver account; a repeated number fails its lookup), then the record checks, then AMOUNT_EXCEED_BALANCE iff the receiver cannot cover the amount after the sender credit; a success credits the sender, debits the receiver, marks the original EXPRIED_AFTER_SUCCESS and appends a CANCEL/SUCCESS record |
| TransactionService.GetValidateDate | src/main/java/com/example/accountz/service/TransactionService.java:403-413 | throws NullPointerException iff a date is missing; fails with WRONG_DATE iff the first date is after the last; the window holds exactly the instants whose day lies between the two dates |
| TransactionProperties.ApplyKeepsValid | src/main/java/com/example/accountz/service/TransactionService.java:38-313 | every successful call keeps all balances ≥ 0 and account numbers increasing |
| TransactionProperties.ApplyKeepsAccountCounts | src/main/java/com/example/accountz/service/AccountService.java:55-58 | no successful money call changes any user's account count, so none frees or takes a slot under the 5-account limit |
| TransactionProperties.ValidLedgerHasNoAmbiguousLookups | src/main/java/com/example/accountz/persist/repository/AccountRepository.java:17 | in a valid ledger no call fails because a number lookup matched several accounts |
| TransactionProperties.ApplyConservesMoney | src/main/java/com/example/accountz/service/TransactionService.java:38-313 | a deposit raises the total balance by its amount and a withdrawal lowers it by its amount; transfers, cancellations and failure records leave it unchanged |
| TransactionProperties.ApplyOnlyAppendsOrExpires | src/main/java/com/example/accountz/service/TransactionService.java:297-312 | each call adds exactly its own record, and an existing record changes only by being marked EXPRIED_AFTER_SUCCESS |
| TransactionProperties.ExpiredIsTerminal | src/main/java/com/example/accountz/service/TransactionService.java:335-337 | a record marked EXPRIED_AFTER_SUCCESS stays so after any call |
| TransactionProperties.TransferMovesExactAmount | src/main/java/com/example/accountz/service/TransactionService.java:256-258 | between distinct accounts the sender loses and the receiver gains exactly the amount, so their sum is unchanged |
| TransactionProperties.CancelIsOneShot | src/main/java/com/example/accountz/service/TransactionService.java:298-301 | after a successful cancel, no later cancel of the same record succeeds, whatever its arguments |
| TransactionProperties.SecondCancelReportsExpired | src/main/java/com/example/accountz/service/TransactionService.java:315-339 | repeating the same cancel fails with EXPIRED_TRANSACTION |
| TransactionProperties.CancelWindowBoundary | src/main/java/com/example/accountz/service/TransactionService.java:331-334 | a record exactly one year old passes the window check; one second older fails with TOO_OLD_ORDER_TO_CANCEL |
| TransactionProperties.CancelUndoesTransfer | src/main/java/com/example/accountz/service/TransactionService.java:272-313 | cancelling a simple transfer with the same accounts and amount succeeds, restores every balance and marks the transfer EXPRIED_AFTER_SUCCESS |
| TransactionProperties.WithdrawUndoesDeposit | src/main/java/com/example/accountz/service/TransactionService.java:75-100 | withdrawing the amount just deposited succeeds and restores every balance |
| TransactionProperties.CancelOfCancelRecordRepeatsReversal | src/main/java/com/example/accountz/service/TransactionService.java:315-339 | the CANCEL record of a successful cancellation passes the record checks, and cancelling it credits the sender and debits the receiver a second time |
| TransactionProperties.CancelOfFailureRecordMovesMoney | src/main/java/com/example/accountz/service/TransactionService.java:322-338 | the record checks never look at the result, so cancelling the FAIL record of a transfer credits the sender and debits the receiver |

## Left out

- `deleteAccount` (closing an account) is called by the account controller, but its implementation is not part of this model. So no operation sets UNREGISTERED; the status appears only as a precondition.
- The read-only history queries (`getTransaction`, `getOrderByReceiveMoney`, `getOrderByName`, `getBetweenDate`, `getFailTransaction`) are left out: they are repository sort and filter calls. Only their date-window validator is modelled.
- The controllers' catch-record-rethrow step is left out. It catches only GlobalException, so a NullPointerException or a lookup failure would not leave a failure record. On a service error the controller calls `saveFailedUseTransaction` in its own transaction and rethrows; that is web-layer plumbing. The failure record itself is modelled.
- Authentication, JWT handling and password hashing are left out. The caller id is a parameter and the password comparison is a boolean input.
- Random UUIDs and `LocalDateTime.now()` are parameters. A precondition says the new transaction id is fresh.
- Concurrency is left out. Every call is atomic and sequential, so the race between two "highest number + 1" allocations and row locking are not modelled.
- Balances and amounts are unbounded integers, not 64-bit `Long`. Overflow would need balances near 2^63, far beyond the 10^9 per-call bound.
- Records do not keep the receiver's display name. Accounts and records do not keep the created/updated audit timestamps, and users do not keep their password hash. None of these takes part in any check.
- The simple transfer's request-body amount bounds are not modelled, because SendUnderMillionMoneyDto is not part of this model. The simple transfer therefore accepts any amount.
- Decimal.ParseInt: accepts ASCII digits only, whereas `Integer.parseInt` also accepts other Unicode decimal digits.
- AccountService.CreateAccountKeepsValid: requires that the last account number is below 2^31 − 1. At that value the source's `int` increment wraps to a negative number. `Int32Increment` models the wrap itself.
- TransactionService.GetValidateDate: times are whole seconds. `LocalDateTime` also has nanoseconds, so in the source the instants after 23:59:59 on the last day fall outside the window.
- The "one year ago" instant is a parameter. Calendar arithmetic (`minusYears(1)` and leap days) is not modelled.

=== FILE: account_entity.dfy ===
/** The three guarded balance mutations an account performs on itself. Each
    changes the balance field only, or fails and changes nothing. */
module AccountEntity {
  import opened Types

  /** `b` is `a` with possibly a different balance. */
  predicate SameExceptBalance(a: Account, b: Account) {
    b == a.(balance := b.balance)
  }

  /** Credit: a negative amount is refused, any other is added. */
  function SaveMoney(a: Account, addMoney: int): (r: Result<Account>)
    ensures r.Err? <==> addMoney < 0
    ensures r.Err? ==> r.error == NotMinusMoney
    ensures r.Ok? ==> SameExceptBalance(a, r.value) && r.value.balance == a.balance + addMoney
    ensures r.Ok? && a.balance >= 0 ==> r.value.balance >= a.balance >= 0
  {
    if addMoney < 0 then Err(NotMinusMoney)
    else Ok(a.(balance := a.balance + addMoney))
  }

  /** Debit: an amount above the balance is refused, so a successful debit
      never leaves the balance negative. */
  function UseBalance(a: Account, amount: int): (r: Result<Account>)
    ensures r.Err? <==> amount > a.balance
    ensures r.Err? ==> r.error == AmountExceedBalance
    ensures r.Ok? ==> SameExceptBalance(a, r.value) && r.value.balance == a.balance - amount
    ensures r.Ok? ==> r.value.balance >= 0
  {
    if amount > a.balance then Err(AmountExceedBalance)
    else Ok(a.(balance := a.balance - amount))
  }

  /** Reversal of a debit: a negative amount is refused, any other is added
      back. */
  function CancelBalance(a: Account, amount: int): (r: Result<Account>)
    ensures r.Err? <==> amount < 0
    ensures r.Err? ==> r.error == InvalidRequest
    ensures r.Ok? ==> SameExceptBalance(a, r.value) && r.value.balance == a.balance + amount
    ensures r.Ok? && a.balance >= 0 ==> r.value.balance >= a.balance >= 0
  {
    if amount < 0 then Err(InvalidRequest)
    else Ok(a.(balance := a.balance + amount))
  }

  /** A debit followed by its reversal gives back the very same account. */
  lemma UseThenCancelRestores(a: Account, amount: int)
    requires 0 <= amount <= a.balance
    ensures UseBalance(a, amount).Ok?
    ensures CancelBalance(UseBalance(a, amount).value, amount) == Ok(a)
  {
  }

  /** A debit of more than the balance fails however small the excess, and
      a debit of exactly the balance empties the account. */
  lemma UseBalanceBoundary(a: Account)
    ensures UseBalance(a, a.balance + 1) == Err(AmountExceedBalance)
    ensures UseBalance(a, a.balance).Ok? && UseBalance(a, a.balance).value.balance == 0
  {
  }
}

=== FILE: account_service.dfy ===
/** Account creation: the owner must exist, may hold at most five accounts
    (counted whatever their status), and the new account takes the number
    after the one of the most recently created account. */
module AccountService {
  import opened Types
  import opened Decimal
  import opened Ledger

  const AccountLimit: nat := 5
  const FirstAccountNumber: string := "1000000000"

  /** The created account, with the state that now holds it. */
  datatype Created = Created(state: State, account: Account)

  /** Room to number one more account without the int overflow of `+ 1`. */
  predicate NumberingHasRoom(accounts: seq<Account>) {
    |accounts| == 0 ||
    (ParseInt(accounts[|accounts| - 1].number).Some? &&
     ParseInt(accounts[|accounts| - 1].number).value < Int32Max)
  }

  lemma FirstAccountNumberValue()
    ensures ParseInt(FirstAccountNumber) == Some(1_000_000_000)
  {
    assert IntToString(1_000_000_000) == FirstAccountNumber;
    IntToStringRoundTrip(1_000_000_000);
  }

  /** checkAccountLimit_5: refuses an owner who already has the limit. */
  function CheckAccountLimit(accounts: seq<Account>, user: UserId): (r: Option<ErrorCode>)
    ensures r.Some? <==> CountByUser(accounts, user) >= AccountLimit
    ensures r.Some? ==> r.value == Max5LimitAccounts
  {
    if CountByUser(accounts, user) >= AccountLimit then Some(Max5LimitAccounts) else None
  }

  /** createAccountNumber: the seed for the very first account, otherwise the
      int after the number of the highest-id account, written in decimal. */
  function CreateAccountNumber(accounts: seq<Account>): (r: Result<string>)
    ensures |accounts| == 0 ==> r == Ok(FirstAccountNumber)
    ensures |accounts| > 0 ==> (r.Err? <==> ParseInt(accounts[|accounts| - 1].number).None?)
    ensures r.Err? ==> r.error == NumberFormat
    ensures r.Ok? && |accounts| > 0 ==>
              && r.value == IntToString(Int32Increment(ParseInt(accounts[|accounts| - 1].number).value))
              && ParseInt(r.value) == Some(Int32Increment(ParseInt(accounts[|accounts| - 1].number).value))
  {
    if |accounts| == 0 then Ok(FirstAccountNumber)
    else
      match ParseInt(accounts[|accounts| - 1].number)
      case None => Err(NumberFormat)
      case Some(last) =>
        var next := Int32Increment(last);
        IntToStringRoundTrip(next);
        Ok(IntToString(next))
  }

  /** createAccount: user lookup, then the limit, then numbering and saving. */
  function CreateAccount(s: State, userId: UserId, now: Time): (r: Result<Created>)
    ensures r == Err(UserNotFound) <==> userId !in s.users
    ensures r == Err(Max5LimitAccounts) <==>
              userId in s.users && CountByUser(s.accounts, userId) >= AccountLimit
    ensures r.Ok? <==>
              userId in s.users && CountByUser(s.accounts, userId) < AccountLimit
              && CreateAccountNumber(s.accounts).Ok?
    ensures r == Err(NumberFormat) <==>
              && userId in s.users
              && CountByUser(s.accounts, userId) < AccountLimit
              && |s.accounts| > 0
              && ParseInt(s.accounts[|s.accounts| - 1].number).None?
    ensures r.Ok? ==>
              && r.value.state == s.(accounts := s.accounts + [r.value.account])
              && r.value.account.owner == userId
              && r.value.account.status == Activated
              && r.value.account.balance == 0
              && r.value.account.registeredAt == now
              && r.value.account.unregisteredAt == None
              && CreateAccountNumber(s.accounts) == Ok(r.value.account.number)
    ensures r.Ok? ==>
              && CountByUser(r.value.state.accounts, userId) == CountByUser(s.accounts, userId) + 1
              && CountByUser(r.value.state.accounts, userId) <= AccountLimit
  {
    if userId !in s.users then Err(UserNotFound)
    else
      match CheckAccountLimit(s.accounts, userId)
      case Some(e) => Err(e)
      case None =>
        match CreateAccountNumber(s.accounts)
        case Err(e) => Err(e)
        case Ok(number) =>
          var account := Account(number, userId, Activated, 0, now, None);
          CountAppend(s.accounts, account, userId);
          Ok(Created(s.(accounts := s.accounts + [account]), account))
  }

  /** In a valid state creation fails only for a missing user or a full
      quota. */
  lemma CreateAccountSucceeds(s: State, userId: UserId, now: Time)
    requires Valid(s)
    ensures CreateAccount(s, userId, now).Ok? <==>
              userId in s.users && CountByUser(s.accounts, userId) < AccountLimit
  {
  }

  /** Closing an account does not lower its owner's count: a user who holds
      five accounts is still refused after one of them is closed. */
  lemma ClosedAccountsStillCount(s: State, userId: UserId, k: nat, now: Time)
    requires userId in s.users
    requires CountByUser(s.accounts, userId) >= AccountLimit
    requires k < |s.accounts|
    ensures CreateAccount(s.(accounts := s.accounts[k := s.accounts[k].(status := Unregistered)]), userId, now)
            == Err(Max5LimitAccounts)
  {
    CountIgnoresStatus(s.accounts, k, Unregistered, userId);
  }

  /** Creation keeps the ledger invariant: the new account starts empty and
      its number exceeds every existing one, so numbers stay unique. */
  lemma CreateAccountKeepsValid(s: State, userId: UserId, now: Time)
    requires Valid(s)
    requires NumberingHasRoom(s.accounts)
    requires CreateAccount(s, userId, now).Ok?
    ensures Valid(CreateAccount(s, userId, now).value.state)
    ensures forall i :: 0 <= i < |s.accounts| ==>
              ParseInt(s.accounts[i].number).value
              < ParseInt(CreateAccount(s, userId, now).value.account.number).value
  {
    var c := CreateAccount(s, userId, now).value;
    NewNumberExceedsAll(s.accounts, c.account.number);
    AppendKeepsIncreasing(s.accounts, c.account);
    AppendKeepsNonNegative(s.accounts, c.account);
  }

  /** The number createAccountNumber hands out is above every number in use,
      as long as `+ 1` does not overflow. */
  lemma NewNumberExceedsAll(accounts: seq<Account>, number: string)
    requires NumbersIncreasing(accounts)
    requires NumberingHasRoom(accounts)
    requires CreateAccountNumber(accounts) == Ok(number)
    ensures ParseInt(number).Some?
    ensures forall i :: 0 <= i < |accounts| ==> ParseInt(accounts[i].number).value < ParseInt(number).value
  {
    var n := |accounts|;
    if n == 0 {
      FirstAccountNumberValue();
    } else {
      NextNumberValue(accounts, number);
      LastNumberIsLargest(accounts);
    }
  }

  /** Below the largest int the next number reads back as the last one + 1. */
  lemma NextNumberValue(accounts: seq<Account>, number: string)
    requires |accounts| > 0
    requires NumberingHasRoom(accounts)
    requires CreateAccountNumber(accounts) == Ok(number)
    ensures ParseInt(number) == Some(ParseInt(accounts[|accounts| - 1].number).value + 1)
  {
    var last := ParseInt(accounts[|accounts| - 1].number).value;
    IntToStringRoundTrip(last + 1);
  }

  /** With increasing numbers, the highest-id account has the largest one. */
  lemma LastNumberIsLargest(accounts: seq<Account>)
    requires |accounts| > 0
    requires NumbersIncreasing(accounts)
    ensures forall i :: 0 <= i < |accounts| ==>
              ParseInt(accounts[i].number).value <= ParseInt(accounts[|accounts| - 1].number).value
  {
  }

  /** The text of the largest int. */
  lemma MaxIntText()
    ensures IntToString(Int32Max) == "2147483647"
  {
    assert NatToString(2) == "2";
    assert NatToString(21) == NatToString(2) + "1";
    assert NatToString(214) == NatToString(21) + "4";
    assert NatToString(2147) == NatToString(214) + "7";
    assert NatToString(21474) == NatToString(2147) + "4";
    assert NatToString(214748) == NatToString(21474) + "8";
    assert NatToString(2147483) == NatToString(214748) + "3";
    assert NatToString(21474836) == NatToString(2147483) + "6";
    assert NatToString(214748364) == NatToString(21474836) + "4";
    assert NatToString(2147483647) == NatToString(214748364) + "7";
  }

  /** The text of the smallest int. */
  lemma MinIntText()
    ensures IntToString(Int32Min) == "-2147483648"
  {
    assert NatToString(2) == "2";
    assert NatToString(21) == NatToString(2) + "1";
    assert NatToString(214) == NatToString(21) + "4";
    assert NatToString(2147) == NatToString(214) + "7";
    assert NatToString(21474) == NatToString(2147) + "4";
    assert NatToString(214748) == NatToString(21474) + "8";
    assert NatToString(2147483) == NatToString(214748) + "3";
    assert NatToString(21474836) == NatToString(2147483) + "6";
    assert NatToString(214748364) == NatToString(21474836) + "4";
    assert NatToString(2147483648) == NatToString(214748364) + "8";
  }

  /** After the account numbered 2147483647 the int increment wraps, and
      the next account is numbered "-2147483648". */
  lemma NumberingWrapsAtIntMax(accounts: seq<Account>)
    requires |accounts| > 0
    requires accounts[|accounts| - 1].number == "2147483647"
    ensures CreateAccountNumber(accounts) == Ok("-2147483648")
  {
    MaxIntText();
    IntToStringRoundTrip(Int32Max);
    assert ParseInt(accounts[|accounts| - 1].number) == Some(Int32Max);
    MinIntText();
  }

  /** The first account ever created is numbered 1000000000. */
  lemma FirstAccountIsSeeded(s: State, userId: UserId, now: Time)
    requires |s.accounts| == 0
    requires userId in s.users
    ensures CreateAccount(s, userId, now).Ok?
    ensures CreateAccount(s, userId, now).value.account.number == "1000000000"
  {
  }
}

=== FILE: decimal.dfy ===
/** Decimal text of 32-bit integers, as Java's Integer.parseInt and
    Integer.toString handle it (ASCII digits only). Account numbers are
    produced and read back through these functions. */
module Decimal {
  import opened Types

  const Int32Min: int := -0x8000_0000
  const Int32Max: int := 0x7FFF_FFFF

  predicate IsDigit(c: char) {
    '0' <= c <= '9'
  }

  predicate AllDigits(s: string) {
    forall i :: 0 <= i < |s| ==> IsDigit(s[i])
  }

  function DigitValue(c: char): (d: nat)
    requires IsDigit(c)
    ensures d < 10
  {
    (c as int) - ('0' as int)
  }

  function DigitChar(d: nat): (c: char)
    requires d < 10
    ensures IsDigit(c) && DigitValue(c) == d
  {
    (('0' as int) + d) as char
  }

  /** The value of a string of decimal digits, most significant first. */
  function DigitsValue(s: string): nat
    requires AllDigits(s)
  {
    if |s| == 0 then 0
    else DigitsValue(s[..|s| - 1]) * 10 + DigitValue(s[|s| - 1])
  }

  /** The shortest decimal digits of `n`: no leading zero unless n is 0. */
  function NatToString(n: nat): (s: string)
    ensures |s| >= 1 && AllDigits(s)
    ensures s[0] == '0' <==> n == 0
  {
    if n < 10 then [DigitChar(n)]
    else NatToString(n / 10) + [DigitChar(n % 10)]
  }

  /** Integer.toString, which `i + ""` calls: a minus sign for negatives. */
  function IntToString(i: int): (s: string)
    ensures |s| >= 1
    ensures i >= 0 ==> AllDigits(s) && (s[0] == '0' <==> i == 0)
    ensures i == 0 ==> s == "0"
    ensures i < 0 ==> |s| >= 2 && s[0] == '-' && AllDigits(s[1..]) && s[1] != '0'
  {
    if i < 0 then "-" + NatToString(-i) else NatToString(i)
  }

  /** Integer.parseInt(s) with radix 10: an optional sign, then at least one
      digit; None (NumberFormatException) for anything else or for a value
      outside the 32-bit range. */
  function ParseInt(s: string): (r: Option<int>)
    ensures r.Some? ==> Int32Min <= r.value <= Int32Max
    ensures r.Some? ==> |s| >= 1 && (IsDigit(s[0]) || s[0] == '-' || s[0] == '+') && AllDigits(s[1..])
    ensures r.Some? && (s[0] == '-' || s[0] == '+') ==> |s| >= 2
    ensures |s| >= 1 && AllDigits(s) ==> (r.Some? <==> DigitsValue(s) <= Int32Max)
    ensures |s| >= 1 && AllDigits(s) && r.Some? ==> r.value == DigitsValue(s)
    ensures |s| >= 2 && s[0] == '+' && AllDigits(s[1..]) ==> r == ParseInt(s[1..])
    ensures |s| >= 2 && s[0] == '-' && AllDigits(s[1..]) ==>
              r == (if DigitsValue(s[1..]) <= -Int32Min then Some(-(DigitsValue(s[1..]) as int)) else None)
  {
    if |s| == 0 then None
    else
      var signed := s[0] == '-' || s[0] == '+';
      var digits := if signed then s[1..] else s;
      if |digits| == 0 || !AllDigits(digits) then None
      else
        var magnitude: int := DigitsValue(digits);
        var v := if s[0] == '-' then -magnitude else magnitude;
        if Int32Min <= v <= Int32Max then Some(v) else None
  }

  /** Java's `int + 1`: wraps from the largest int to the smallest. */
  function Int32Increment(v: int): (r: int)
    requires Int32Min <= v <= Int32Max
    ensures Int32Min <= r <= Int32Max
    ensures (r - (v + 1)) % 0x1_0000_0000 == 0
    ensures v < Int32Max ==> r == v + 1
    ensures v == Int32Max ==> r == Int32Min
  {
    if v == Int32Max then Int32Min else v + 1
  }

  lemma {:induction false} NatToStringRoundTrip(n: nat)
    ensures DigitsValue(NatToString(n)) == n
  {
    var s := NatToString(n);
    if n < 10 {
      assert s[..|s| - 1] == [];
    } else {
      NatToStringRoundTrip(n / 10);
      assert s[..|s| - 1] == NatToString(n / 10);
    }
  }

  /** Reading back the text of any 32-bit int gives that int. */
  lemma IntToStringRoundTrip(i: int)
    requires Int32Min <= i <= Int32Max
    ensures ParseInt(IntToString(i)) == Some(i)
  {
    var s := IntToString(i);
    if i < 0 {
      NatToStringRoundTrip(-i);
      assert s[1..] == NatToString(-i);
    } else {
      NatToStringRoundTrip(i);
      var t := NatToString(i);
      assert IsDigit(t[0]);
    }
  }
}

=== FILE: ledger.dfy ===
/** Queries over the stored accounts that the services share, the ledger's
    invariant, and facts about how balance-only updates affect them. */
module Ledger {
  import opened Types
  import opened Decimal
  import AccountEntity

  /** What a single-result query by account number finds: no row, exactly
      one row, or several rows (which the query reports as an error). */
  datatype Lookup = NoMatch | OneMatch(id: AccountId) | ManyMatches

  /** accountRepository.findByAccountNumber, a query returning at most one
      row: empty when no account carries the number, the account when
      exactly one does, and a failure when several do. */
  function FindByAccountNumber(accounts: seq<Account>, number: string): (r: Lookup)
    ensures r.NoMatch? <==> forall j :: 0 <= j < |accounts| ==> accounts[j].number != number
    ensures r.OneMatch? ==>
              && r.id < |accounts| && accounts[r.id].number == number
              && forall j :: 0 <= j < |accounts| && j != r.id ==> accounts[j].number != number
    ensures r.ManyMatches? <==>
              exists i, j :: 0 <= i < j < |accounts| && accounts[i].number == number && accounts[j].number == number
  {
    if |accounts| == 0 then NoMatch
    else
      var rest := FindByAccountNumber(accounts[1..], number);
      if accounts[0].number == number then
        match rest
        case NoMatch => OneMatch(0)
        case OneMatch(i) =>
          assert accounts[i + 1].number == number;
          ManyMatches
        case ManyMatches => ManyMatches
      else
        match rest
        case NoMatch => NoMatch
        case OneMatch(i) => OneMatch(i + 1)
        case ManyMatches => ManyMatches
  }

  /** accountRepository.countByUser: accounts owned by `user`, whatever
      their status. */
  function CountByUser(accounts: seq<Account>, user: UserId): (n: nat)
    ensures n <= |accounts|
    ensures n == 0 <==> forall i :: 0 <= i < |accounts| ==> accounts[i].owner != user
    ensures n == |accounts| <==> forall i :: 0 <= i < |accounts| ==> accounts[i].owner == user
  {
    if |accounts| == 0 then 0
    else (if accounts[0].owner == user then 1 else 0) + CountByUser(accounts[1..], user)
  }

  /** The sum of all balances. */
  function TotalBalance(accounts: seq<Account>): int
  {
    if |accounts| == 0 then 0
    else accounts[0].balance + TotalBalance(accounts[1..])
  }

  predicate BalancesNonNegative(accounts: seq<Account>) {
    forall i :: 0 <= i < |accounts| ==> accounts[i].balance >= 0
  }

  /** Every account number is a decimal int, and numbers grow with the id. */
  predicate NumbersIncreasing(accounts: seq<Account>) {
    && (forall i :: 0 <= i < |accounts| ==> ParseInt(accounts[i].number).Some?)
    && (forall i, j :: 0 <= i < j < |accounts| ==>
          ParseInt(accounts[i].number).value < ParseInt(accounts[j].number).value)
  }

  predicate NumbersUnique(accounts: seq<Account>) {
    forall i, j :: 0 <= i < j < |accounts| ==> accounts[i].number != accounts[j].number
  }

  /** The ledger invariant every service call keeps. */
  predicate Valid(s: State) {
    BalancesNonNegative(s.accounts) && NumbersIncreasing(s.accounts)
  }

  /** `after` is `before` with the balance of account i moved by di and
      that of account j by dj (by di + dj when i == j), all else equal. */
  predicate BalancesMoved(before: seq<Account>, after: seq<Account>, i: AccountId, di: int, j: AccountId, dj: int)
  {
    && |after| == |before|
    && i < |before|
    && j < |before|
    && forall k :: 0 <= k < |before| ==>
         after[k] == before[k].(balance := before[k].balance + (if k == i then di else 0) + (if k == j then dj else 0))
  }

  /** `after` holds the same accounts as `before` apart from balances. */
  predicate SameExceptBalances(before: seq<Account>, after: seq<Account>) {
    |after| == |before| &&
    forall k :: 0 <= k < |before| ==> AccountEntity.SameExceptBalance(before[k], after[k])
  }

  lemma NumbersIncreasingAreUnique(accounts: seq<Account>)
    requires NumbersIncreasing(accounts)
    ensures NumbersUnique(accounts)
  {
  }

  /** With unique numbers a lookup never finds several rows, and it finds
      account i exactly when i carries the number. */
  lemma FindUnique(accounts: seq<Account>, number: string)
    requires NumbersUnique(accounts)
    ensures !FindByAccountNumber(accounts, number).ManyMatches?
    ensures forall i :: 0 <= i < |accounts| ==>
              (FindByAccountNumber(accounts, number) == OneMatch(i) <==> accounts[i].number == number)
  {
  }

  lemma BalancesMovedKeepsOthers(before: seq<Account>, after: seq<Account>, i: AccountId, di: int, j: AccountId, dj: int)
    requires BalancesMoved(before, after, i, di, j, dj)
    ensures SameExceptBalances(before, after)
  {
  }

  /** Lookups by number do not depend on balances. */
  lemma {:induction false} FindIgnoresBalances(before: seq<Account>, after: seq<Account>, number: string)
    requires SameExceptBalances(before, after)
    ensures FindByAccountNumber(after, number) == FindByAccountNumber(before, number)
    decreases |before|
  {
    if |before| > 0 {
      assert before[0].number == after[0].number;
      FindIgnoresBalances(before[1..], after[1..], number);
    }
  }

  /** Counting by owner does not depend on balances. */
  lemma {:induction false} CountIgnoresBalances(before: seq<Account>, after: seq<Account>, user: UserId)
    requires SameExceptBalances(before, after)
    ensures CountByUser(after, user) == CountByUser(before, user)
    decreases |before|
  {
    if |before| > 0 {
      assert before[0].owner == after[0].owner;
      CountIgnoresBalances(before[1..], after[1..], user);
    }
  }

  /** Counting by owner ignores the status: closing accounts never frees a
      slot under the per-owner limit. */
  lemma {:induction false} CountIgnoresStatus(accounts: seq<Account>, k: nat, status: AccountStatus, user: UserId)
    requires k < |accounts|
    ensures CountByUser(accounts[k := accounts[k].(status := status)], user) == CountByUser(accounts, user)
    decreases |accounts|
  {
    var updated := accounts[k := accounts[k].(status := status)];
    if k > 0 {
      CountIgnoresStatus(accounts[1..], k - 1, status, user);
      assert updated[1..] == accounts[1..][k - 1 := accounts[k].(status := status)];
    } else {
      assert updated[1..] == accounts[1..];
    }
  }

  /** Appending an account raises its owner's count by one and no other. */
  lemma {:induction false} CountAppend(accounts: seq<Account>, a: Account, user: UserId)
    ensures CountByUser(accounts + [a], user) == CountByUser(accounts, user) + (if a.owner == user then 1 else 0)
    decreases |accounts|
  {
    if |accounts| > 0 {
      CountAppend(accounts[1..], a, user);
      assert (accounts + [a])[1..] == accounts[1..] + [a];
    }
  }

  /** Helper for TotalOfMoved with indices that may be out of range. */
  lemma {:induction false} TotalOfShifted(before: seq<Account>, after: seq<Account>, i: int, di: int, j: int, dj: int)
    requires |after| == |before|
    requires forall k :: 0 <= k < |before| ==>
               after[k].balance == before[k].balance + (if k == i then di else 0) + (if k == j then dj else 0)
    ensures TotalBalance(after) == TotalBalance(before)
                                   + (if 0 <= i < |before| then di else 0)
                                   + (if 0 <= j < |before| then dj else 0)
    decreases |before|
  {
    if |before| > 0 {
      TotalOfShifted(before[1..], after[1..], i - 1, di, j - 1, dj);
    }
  }

  /** Moving balances changes the total by exactly the moved amounts. */
  lemma TotalOfMoved(before: seq<Account>, after: seq<Account>, i: AccountId, di: int, j: AccountId, dj: int)
    requires BalancesMoved(before, after, i, di, j, dj)
    ensures TotalBalance(after) == TotalBalance(before) + di + dj
  {
    TotalOfShifted(before, after, i, di, j, dj);
  }

  /** Balance-only changes keep account numbers, hence their ordering. */
  lemma NumbersIgnoreBalances(before: seq<Account>, after: seq<Account>)
    requires SameExceptBalances(before, after)
    requires NumbersIncreasing(before)
    ensures NumbersIncreasing(after)
  {
    assert forall k :: 0 <= k < |before| ==> after[k].number == before[k].number;
  }

  /** An account whose number exceeds all others can be appended. */
  lemma AppendKeepsIncreasing(accounts: seq<Account>, a: Account)
    requires NumbersIncreasing(accounts)
    requires ParseInt(a.number).Some?
    requires forall i :: 0 <= i < |accounts| ==> ParseInt(accounts[i].number).value < ParseInt(a.number).value
    ensures NumbersIncreasing(accounts + [a])
  {
    var b := accounts + [a];
    assert forall i :: 0 <= i < |accounts| ==> b[i] == accounts[i];
    assert b[|accounts|] == a;
  }

  lemma AppendKeepsNonNegative(accounts: seq<Account>, a: Account)
    requires BalancesNonNegative(accounts)
    requires a.balance >= 0
    ensures BalancesNonNegative(accounts + [a])
  {
    var b := accounts + [a];
    assert forall i :: 0 <= i < |accounts| ==> b[i] == accounts[i];
  }

  /** Moving the same balances back by the opposite amounts restores the
      accounts exactly. */
  lemma MovedBackRestores(a: seq<Account>, b: seq<Account>, c: seq<Account>,
                          i: AccountId, di: int, j: AccountId, dj: int)
    requires BalancesMoved(a, b, i, di, j, dj)
    requires BalancesMoved(b, c, i, -di, j, -dj)
    ensures c == a
  {
    assert forall k :: 0 <= k < |a| ==> c[k] == a[k];
  }
}

=== FILE: transaction_properties.dfy ===
/** Properties that relate several service calls, or hold of every call:
    the ledger invariant, conservation of money, history that only grows,
    one-shot cancellation, and reversals that restore balances. */
module TransactionProperties {
  import opened Types
  import opened Ledger
  import opened TransactionService

  /** One call into the transaction service, with everything it reads from
      outside the ledger: the clock, the fresh transaction id, the result
      of the password comparison. */
  datatype Request =
    | Deposit(userId: UserId, accountNumber: string, amount: int, txId: TxId, now: Time)
    | Withdraw(userId: UserId, accountNumber: string, amount: int, txId: TxId, now: Time)
    | SendUnderMillion(userId: UserId, sender: string, receiver: string, amount: int, txId: TxId, now: Time)
    | SendOverMillion(userId: UserId, sender: string, name: string, birthDay: Option<Date>, email: string,
                      passwordMatches: bool, receiver: string, amount: int, txId: TxId, now: Time)
    | CancelTransaction(userId: UserId, transactionId: TxId, sender: string, receiver: string, amount: int,
                        txId: TxId, now: Time, yearAgo: Time)
    | RecordFailure(userId: UserId, sender: string, receiver: string, amount: int, txId: TxId, now: Time)

  /** A request that passed the request-body validation and carries a fresh
      transaction id. */
  predicate Admissible(s: State, req: Request) {
    && req.txId !in s.txs
    && match req
       case Deposit(_, _, amount, _, _) => MinAmount <= amount <= MaxAmount
       case Withdraw(_, _, amount, _, _) => MinAmount <= amount <= MaxAmount
       case SendUnderMillion(_, _, _, _, _, _) => true
       case SendOverMillion(_, _, _, _, _, _, _, amount, _, _) => LargeTransferThreshold <= amount <= MaxAmount
       case CancelTransaction(_, _, _, _, amount, _, _, _) => MinAmount <= amount <= MaxAmount
       case RecordFailure(_, _, _, _, _, _) => true
  }

  function Apply(s: State, req: Request): Result<Receipt>
    requires Admissible(s, req)
  {
    match req
    case Deposit(u, n, a, id, now) => SaveMoney(s, u, n, a, id, now)
    case Withdraw(u, n, a, id, now) => UseBalance(s, u, n, a, id, now)
    case SendUnderMillion(u, from, to, a, id, now) => UnderMillionSendMoney(s, u, from, to, a, id, now)
    case SendOverMillion(u, from, name, bd, email, pw, to, a, id, now) =>
      OverMillionSendMoney(s, u, from, name, bd, email, pw, to, a, id, now)
    case CancelTransaction(u, t, from, to, a, id, now, ago) => CancelBalance(s, u, t, from, to, a, id, now, ago)
    case RecordFailure(u, from, to, a, id, now) => SaveFailedUseTransaction(s, u, from, to, a, id, now)
  }

  /** Money that enters (deposit) or leaves (withdraw) the ledger. */
  function NetInflow(req: Request): int {
    match req
    case Deposit(_, _, amount, _, _) => amount
    case Withdraw(_, _, amount, _, _) => -amount
    case _ => 0
  }

  /** Every successful call keeps all balances non-negative and all account
      numbers unique and ordered. */
  lemma ApplyKeepsValid(s: State, req: Request)
    requires Valid(s)
    requires Admissible(s, req)
    requires Apply(s, req).Ok?
    ensures Valid(Apply(s, req).value.state)
  {
    var st := Apply(s, req).value.state;
    assert SameExceptBalances(s.accounts, st.accounts);
    NumbersIgnoreBalances(s.accounts, st.accounts);
  }

  /** No successful call changes how many accounts anyone owns, so money
      movement never frees or takes a slot under the five-account limit. */
  lemma ApplyKeepsAccountCounts(s: State, req: Request, user: UserId)
    requires Admissible(s, req)
    requires Apply(s, req).Ok?
    ensures CountByUser(Apply(s, req).value.state.accounts, user) == CountByUser(s.accounts, user)
  {
    var st := Apply(s, req).value.state;
    assert SameExceptBalances(s.accounts, st.accounts);
    CountIgnoresBalances(s.accounts, st.accounts, user);
  }

  /** In a valid ledger account numbers are unique, so no call ever fails
      because a single-result lookup matched several accounts. */
  lemma ValidLedgerHasNoAmbiguousLookups(s: State, req: Request)
    requires Valid(s)
    requires Admissible(s, req)
    ensures Apply(s, req) != Err(NonUniqueResult)
  {
    NumbersIncreasingAreUnique(s.accounts);
    match req
    case Deposit(u, n, a, id, now) =>
      FindUnique(s.accounts, n);
    case Withdraw(u, n, a, id, now) =>
      FindUnique(s.accounts, n);
    case SendUnderMillion(u, from, to, a, id, now) =>
      FindUnique(s.accounts, from);
      FindUnique(s.accounts, to);
    case SendOverMillion(u, from, name, bd, email, pw, to, a, id, now) =>
      FindUnique(s.accounts, from);
      FindUnique(s.accounts, to);
    case CancelTransaction(u, t, from, to, a, id, now, ago) =>
      FindUnique(s.accounts, from);
      FindUnique(s.accounts, to);
    case RecordFailure(u, from, to, a, id, now) =>
      FindUnique(s.accounts, from);
      FindUnique(s.accounts, to);
  }

  /** Transfers, cancellations and failure records move no money in or out
      of the ledger; deposits and withdrawals move exactly their amount. */
  lemma ApplyConservesMoney(s: State, req: Request)
    requires Admissible(s, req)
    requires Apply(s, req).Ok?
    ensures TotalBalance(Apply(s, req).value.state.accounts) == TotalBalance(s.accounts) + NetInflow(req)
  {
    var st := Apply(s, req).value.state;
    match req
    case Deposit(u, n, a, id, now) =>
      TotalOfMoved(s.accounts, st.accounts, IdOf(s, n), a, IdOf(s, n), 0);
    case Withdraw(u, n, a, id, now) =>
      TotalOfMoved(s.accounts, st.accounts, IdOf(s, n), -a, IdOf(s, n), 0);
    case SendUnderMillion(u, from, to, a, id, now) =>
      TotalOfMoved(s.accounts, st.accounts, IdOf(s, from), -a, IdOf(s, to), a);
    case SendOverMillion(u, from, name, bd, email, pw, to, a, id, now) =>
      TotalOfMoved(s.accounts, st.accounts, IdOf(s, from), -a, IdOf(s, to), a);
    case CancelTransaction(u, t, from, to, a, id, now, ago) =>
      TotalOfMoved(s.accounts, st.accounts, IdOf(s, from), a, IdOf(s, to), -a);
    case RecordFailure(u, from, to, a, id, now) =>
  }

  /** History is append-only: every call adds exactly its own record, and an
      existing record can change only by being marked EXPRIED_AFTER_SUCCESS. */
  lemma ApplyOnlyAppendsOrExpires(s: State, req: Request)
    requires Admissible(s, req)
    requires Apply(s, req).Ok?
    ensures Apply(s, req).value.state.txs.Keys == s.txs.Keys + {req.txId}
    ensures Apply(s, req).value.state.txs[req.txId] == Apply(s, req).value.record
    ensures forall k :: k in s.txs ==>
              var after := Apply(s, req).value.state.txs[k];
              after == s.txs[k] || after == s.txs[k].(result := ExpiredAfterSuccess)
  {
  }

  /** Once a record is cancelled it stays cancelled, whatever call follows. */
  lemma ExpiredIsTerminal(s: State, req: Request, k: TxId)
    requires Admissible(s, req)
    requires Apply(s, req).Ok?
    requires k in s.txs && s.txs[k].result == ExpiredAfterSuccess
    ensures Apply(s, req).value.state.txs[k].result == ExpiredAfterSuccess
  {
    ApplyOnlyAppendsOrExpires(s, req);
  }

  /** A transfer between two distinct accounts takes the amount from one and
      gives it to the other, so their combined balance is unchanged. */
  lemma TransferMovesExactAmount(s: State, userId: UserId, sender: string, receiver: string, amount: int,
                                 txId: TxId, now: Time)
    requires txId !in s.txs
    requires UnderMillionSendMoney(s, userId, sender, receiver, amount, txId, now).Ok?
    requires sender != receiver
    ensures var st := UnderMillionSendMoney(s, userId, sender, receiver, amount, txId, now).value.state;
            var si := IdOf(s, sender);
            var ri := IdOf(s, receiver);
            && si != ri
            && st.accounts[si].balance == s.accounts[si].balance - amount
            && st.accounts[ri].balance == s.accounts[ri].balance + amount
            && st.accounts[si].balance + st.accounts[ri].balance == s.accounts[si].balance + s.accounts[ri].balance
  {
  }

  /** A successful cancellation cannot be repeated: any later cancellation of
      the same record fails, whoever asks and with whatever arguments. */
  lemma CancelIsOneShot(s: State, userId: UserId, transactionId: TxId, sender: string, receiver: string,
                        amount: int, newTxId: TxId, now: Time, yearAgo: Time,
                        userId2: UserId, sender2: string, receiver2: string, amount2: int,
                        newTxId2: TxId, now2: Time, yearAgo2: Time)
    requires MinAmount <= amount <= MaxAmount && newTxId !in s.txs
    requires CancelBalance(s, userId, transactionId, sender, receiver, amount, newTxId, now, yearAgo).Ok?
    requires MinAmount <= amount2 <= MaxAmount
    requires newTxId2 !in CancelBalance(s, userId, transactionId, sender, receiver, amount, newTxId, now, yearAgo).value.state.txs
    ensures CancelBalance(CancelBalance(s, userId, transactionId, sender, receiver, amount, newTxId, now, yearAgo).value.state,
                          userId2, transactionId, sender2, receiver2, amount2, newTxId2, now2, yearAgo2).Err?
  {
    var st := CancelBalance(s, userId, transactionId, sender, receiver, amount, newTxId, now, yearAgo).value.state;
    assert st.txs[transactionId].result == ExpiredAfterSuccess;
  }

  /** Repeating the very same cancellation reports EXPIRED_TRANSACTION: all
      earlier checks still pass, because balances moved but numbers, owners
      and the record's account, amount and time did not. */
  lemma SecondCancelReportsExpired(s: State, userId: UserId, transactionId: TxId, sender: string,
                                   receiver: string, amount: int, newTxId: TxId, now: Time, yearAgo: Time,
                                   newTxId2: TxId, now2: Time)
    requires MinAmount <= amount <= MaxAmount && newTxId !in s.txs
    requires CancelBalance(s, userId, transactionId, sender, receiver, amount, newTxId, now, yearAgo).Ok?
    requires newTxId2 !in CancelBalance(s, userId, transactionId, sender, receiver, amount, newTxId, now, yearAgo).value.state.txs
    ensures CancelBalance(CancelBalance(s, userId, transactionId, sender, receiver, amount, newTxId, now, yearAgo).value.state,
                          userId, transactionId, sender, receiver, amount, newTxId2, now2, yearAgo)
            == Err(ExpiredTransaction)
  {
    var st := CancelBalance(s, userId, transactionId, sender, receiver, amount, newTxId, now, yearAgo).value.state;
    var ui := IdOf(s, sender);
    var ri := IdOf(s, receiver);
    BalancesMovedKeepsOthers(s.accounts, st.accounts, ui, amount, ri, -amount);
    FindIgnoresBalances(s.accounts, st.accounts, sender);
    FindIgnoresBalances(s.accounts, st.accounts, receiver);
    assert st.txs[transactionId] == s.txs[transactionId].(result := ExpiredAfterSuccess);
  }

  /** The cancellation window is closed at its far end: a record exactly one
      year old can still be cancelled, one a second older cannot. */
  lemma CancelWindowBoundary(t: Transaction, account: AccountId, yearAgo: Time)
    requires t.account == account
    requires t.result != ExpiredAfterSuccess
    ensures ValidateCancelBalance(t.(transactedAt := yearAgo), account, t.amount, yearAgo) == None
    ensures ValidateCancelBalance(t.(transactedAt := yearAgo - 1), account, t.amount, yearAgo)
            == Some(TooOldOrderToCancel)
  {
  }

  /** Cancelling a fresh simple transfer, naming the same two accounts,
      gives every account its balance back and marks the transfer record
      EXPRIED_AFTER_SUCCESS. */
  lemma CancelUndoesTransfer(s: State, userId: UserId, sender: string, receiver: string, amount: int,
                             txId: TxId, now: Time, cancelTxId: TxId, now2: Time, yearAgo: Time)
    requires BalancesNonNegative(s.accounts)
    requires MinAmount <= amount <= MaxAmount
    requires txId !in s.txs
    requires UnderMillionSendMoney(s, userId, sender, receiver, amount, txId, now).Ok?
    requires cancelTxId !in UnderMillionSendMoney(s, userId, sender, receiver, amount, txId, now).value.state.txs
    requires yearAgo <= now
    ensures var st := UnderMillionSendMoney(s, userId, sender, receiver, amount, txId, now).value.state;
            var c := CancelBalance(st, userId, txId, sender, receiver, amount, cancelTxId, now2, yearAgo);
            && c.Ok?
            && c.value.state.accounts == s.accounts
            && c.value.state.txs[txId].result == ExpiredAfterSuccess
  {
    var r := UnderMillionSendMoney(s, userId, sender, receiver, amount, txId, now).value;
    var st := r.state;
    var si := IdOf(s, sender);
    var ri := IdOf(s, receiver);
    BalancesMovedKeepsOthers(s.accounts, st.accounts, si, -amount, ri, amount);
    FindIgnoresBalances(s.accounts, st.accounts, sender);
    FindIgnoresBalances(s.accounts, st.accounts, receiver);
    assert IdOf(st, sender) == si && IdOf(st, receiver) == ri;
    assert st.txs[txId] == r.record;
    assert ValidateCancelBalance(st.txs[txId], si, amount, yearAgo) == None;
    assert ReceiverBalanceAtDebit(st, si, ri, amount) >= amount;
    var c := CancelBalance(st, userId, txId, sender, receiver, amount, cancelTxId, now2, yearAgo);
    assert c.Ok?;
    MovedBackRestores(s.accounts, st.accounts, c.value.state.accounts, si, -amount, ri, amount);
  }

  /** A withdrawal of what was just deposited gives the account back its
      balance. */
  lemma WithdrawUndoesDeposit(s: State, userId: UserId, accountNumber: string, amount: int,
                              txId: TxId, now: Time, txId2: TxId, now2: Time)
    requires BalancesNonNegative(s.accounts)
    requires MinAmount <= amount <= MaxAmount
    requires txId !in s.txs
    requires SaveMoney(s, userId, accountNumber, amount, txId, now).Ok?
    requires txId2 !in SaveMoney(s, userId, accountNumber, amount, txId, now).value.state.txs
    ensures var st := SaveMoney(s, userId, accountNumber, amount, txId, now).value.state;
            var w := UseBalance(st, userId, accountNumber, amount, txId2, now2);
            && w.Ok?
            && w.value.state.accounts == s.accounts
  {
    var st := SaveMoney(s, userId, accountNumber, amount, txId, now).value.state;
    var i := IdOf(s, accountNumber);
    BalancesMovedKeepsOthers(s.accounts, st.accounts, i, amount, i, 0);
    FindIgnoresBalances(s.accounts, st.accounts, accountNumber);
    var w := UseBalance(st, userId, accountNumber, amount, txId2, now2);
    assert IdOf(st, accountNumber) == i;
    assert w.Ok?;
    MovedBackRestores(s.accounts, st.accounts, w.value.state.accounts, i, amount, i, 0);
  }

  /** The record checks never look at the result: the FAIL record written
      after a failed transfer passes them, and cancelling it moves the
      amount from the receiver to the sender although no money moved the
      first time. */
  lemma CancelOfFailureRecordMovesMoney(s: State, userId: UserId, sender: string, receiver: string, amount: int,
                                        txId: TxId, now: Time, cancelTxId: TxId, now2: Time, yearAgo: Time)
    requires MinAmount <= amount <= MaxAmount
    requires userId in s.users
    requires txId !in s.txs
    requires SaveFailedUseTransaction(s, userId, sender, receiver, amount, txId, now).Ok?
    requires IdOf(s, sender) != IdOf(s, receiver)
    requires s.accounts[IdOf(s, receiver)].balance >= amount
    requires cancelTxId !in SaveFailedUseTransaction(s, userId, sender, receiver, amount, txId, now).value.state.txs
    requires yearAgo <= now
    ensures var st := SaveFailedUseTransaction(s, userId, sender, receiver, amount, txId, now).value.state;
            var c := CancelBalance(st, userId, txId, sender, receiver, amount, cancelTxId, now2, yearAgo);
            && st.txs[txId].result == Fail
            && c.Ok?
            && c.value.state.accounts[IdOf(s, sender)].balance == s.accounts[IdOf(s, sender)].balance + amount
            && c.value.state.accounts[IdOf(s, receiver)].balance == s.accounts[IdOf(s, receiver)].balance - amount
  {
    var r := SaveFailedUseTransaction(s, userId, sender, receiver, amount, txId, now).value;
    var st := r.state;
    var si := IdOf(s, sender);
    var ri := IdOf(s, receiver);
    assert st.txs[txId] == r.record;
    assert ValidateCancelBalance(st.txs[txId], si, amount, yearAgo) == None;
    assert ReceiverBalanceAtDebit(st, si, ri, amount) >= amount;
  }

  /** The record checks never look at the record's type either: the
      CANCEL record a cancellation appends passes them, so cancelling it
      reverses the same transfer a second time. */
  lemma CancelOfCancelRecordRepeatsReversal(s: State, userId: UserId, transactionId: TxId, sender: string,
                                            receiver: string, amount: int, newTxId: TxId, now: Time,
                                            yearAgo: Time, newTxId2: TxId, now2: Time, yearAgo2: Time)
    requires MinAmount <= amount <= MaxAmount && newTxId !in s.txs
    requires CancelBalance(s, userId, transactionId, sender, receiver, amount, newTxId, now, yearAgo).Ok?
    requires newTxId2 !in CancelBalance(s, userId, transactionId, sender, receiver, amount, newTxId, now, yearAgo).value.state.txs
    requires IdOf(s, sender) != IdOf(s, receiver)
    requires CancelBalance(s, userId, transactionId, sender, receiver, amount, newTxId, now, yearAgo).value.state.accounts[IdOf(s, receiver)].balance >= amount
    requires yearAgo2 <= now
    ensures var st := CancelBalance(s, userId, transactionId, sender, receiver, amount, newTxId, now, yearAgo).value.state;
            var c := CancelBalance(st, userId, newTxId, sender, receiver, amount, newTxId2, now2, yearAgo2);
            && st.txs[newTxId].kind == Cancel
            && c.Ok?
            && c.value.state.accounts[IdOf(s, sender)].balance == s.accounts[IdOf(s, sender)].balance + 2 * amount
            && c.value.state.accounts[IdOf(s, receiver)].balance == s.accounts[IdOf(s, receiver)].balance - 2 * amount
  {
    var r := CancelBalance(s, userId, transactionId, sender, receiver, amount, newTxId, now, yearAgo).value;
    var st := r.state;
    var ui := IdOf(s, sender);
    var ri := IdOf(s, receiver);
    BalancesMovedKeepsOthers(s.accounts, st.accounts, ui, amount, ri, -amount);
    FindIgnoresBalances(s.accounts, st.accounts, sender);
    FindIgnoresBalances(s.accounts, st.accounts, receiver);
    assert IdOf(st, sender) == ui && IdOf(st, receiver) == ri;
    assert st.txs[newTxId] == r.record;
    assert ValidateCancelBalance(st.txs[newTxId], ui, amount, yearAgo2) == None;
    assert ReceiverBalanceAtDebit(st, ui, ri, amount) >= amount;
  }
}

=== FILE: transaction_service.dfy ===
/** The money-movement operations. Each one runs in its own database
    transaction: it either returns the new state with the record it
    appended, or an error, in which case the caller keeps the state it had
    (every change the call made before failing is rolled back). */
module TransactionService {
  import opened Types
  import opened Ledger
  import AccountEntity

  /** Bounds the request bodies impose on amounts before any service runs. */
  const MinAmount: int := 1
  const MaxAmount: int := 1_000_000_000
  /** The smallest amount the identity-checked transfer accepts. */
  const LargeTransferThreshold: int := 1_000_000

  /** Exactly one account carries the number. */
  predicate Found(s: State, number: string) {
    FindByAccountNumber(s.accounts, number).OneMatch?
  }

  /** No account carries the number (ACCOUNT_NOT_FOUND). */
  predicate Missing(s: State, number: string) {
    FindByAccountNumber(s.accounts, number).NoMatch?
  }

  /** Several accounts carry the number, so the lookup itself fails. */
  predicate Duplicated(s: State, number: string) {
    FindByAccountNumber(s.accounts, number).ManyMatches?
  }

  function IdOf(s: State, number: string): (i: AccountId)
    requires Found(s, number)
    ensures i < |s.accounts| && s.accounts[i].number == number
  {
    FindByAccountNumber(s.accounts, number).id
  }

  /** `after` differs from `before` only by the record `rec` under the fresh
      key `txId` (and by whatever the accounts hold). */
  predicate AppendedRecord(before: State, after: State, txId: TxId, rec: Transaction) {
    && txId !in before.txs
    && after.users == before.users
    && after.txs == before.txs[txId := rec]
  }

  // ---------------------------------------------------------------- checks

  /** saveValidateMoney: the caller must own the account, and the account
      must be open; the first violated rule is reported. */
  function SaveValidateMoney(userId: UserId, account: Account): (r: Option<ErrorCode>)
    ensures r.None? <==> account.owner == userId && account.status == Activated
    ensures r == Some(UserAccountUnmatched) <==> account.owner != userId
    ensures r == Some(AccountAlreadyUnregistered) <==> account.owner == userId && account.status != Activated
  {
    if account.owner != userId then Some(UserAccountUnmatched)
    else if account.status != Activated then Some(AccountAlreadyUnregistered)
    else None
  }

  /** validateUseBalance: the deposit rules, then enough balance. */
  function ValidateUseBalance(userId: UserId, account: Account, amount: int): (r: Option<ErrorCode>)
    ensures r.None? <==> account.owner == userId && account.status == Activated && amount <= account.balance
    ensures r == Some(UserAccountUnmatched) <==> account.owner != userId
    ensures r == Some(AccountAlreadyUnregistered) <==> account.owner == userId && account.status != Activated
    ensures r == Some(AmountExceedBalance) <==>
              account.owner == userId && account.status == Activated && account.balance < amount
  {
    if account.owner != userId then Some(UserAccountUnmatched)
    else if account.status != Activated then Some(AccountAlreadyUnregistered)
    else if account.balance < amount then Some(AmountExceedBalance)
    else None
  }

  /** validateUserInfo: name, birthday, email, password, in that order; the
      first mismatch is reported, so a wrong password surfaces only when
      the other three fields match. Once the names match, comparing the
      birthdays with LocalDate.isEqual throws a NullPointerException when
      either the stored or the given birthday is missing. */
  function ValidateUserInfo(user: User, userName: string, userBirthDay: Option<Date>, userEmail: string,
                            passwordMatches: bool): (r: Option<ErrorCode>)
    ensures r.None? <==>
              && user.name == userName && user.birthDay.Some? && user.birthDay == userBirthDay
              && user.email == userEmail && passwordMatches
    ensures r == Some(UnmatchedUser) <==> user.name != userName
    ensures r == Some(NullPointer) <==> user.name == userName && (user.birthDay.None? || userBirthDay.None?)
    ensures r == Some(UnmatchedBirthday) <==>
              user.name == userName && user.birthDay.Some? && userBirthDay.Some? && user.birthDay != userBirthDay
    ensures r == Some(UnmatchedEmail) <==>
              user.name == userName && user.birthDay.Some? && user.birthDay == userBirthDay && user.email != userEmail
    ensures r == Some(UnmatchedPassword) <==>
              && user.name == userName && user.birthDay.Some? && user.birthDay == userBirthDay
              && user.email == userEmail && !passwordMatches
  {
    if user.name != userName then Some(UnmatchedUser)
    else if user.birthDay.None? || userBirthDay.None? then Some(NullPointer)
    else if user.birthDay.value != userBirthDay.value then Some(UnmatchedBirthday)
    else if user.email != userEmail then Some(UnmatchedEmail)
    else if !passwordMatches then Some(UnmatchedPassword)
    else None
  }

  /** validateReceiver: money goes only to an open account. */
  function ValidateReceiver(account: Account): (r: Option<ErrorCode>)
    ensures r.None? <==> account.status == Activated
    ensures r.Some? ==> r.value == ReceiverAccountUnregistered
  {
    if account.status != Activated then Some(ReceiverAccountUnregistered) else None
  }

  /** validateCancelBalance: the record must belong to the given account,
      be cancelled for its whole amount, be at most a year old (a record
      exactly one year old still qualifies), and not be cancelled already. */
  function ValidateCancelBalance(t: Transaction, account: AccountId, amount: int, yearAgo: Time): (r: Option<ErrorCode>)
    ensures r.None? <==>
              t.account == account && t.amount == amount && yearAgo <= t.transactedAt
              && t.result != ExpiredAfterSuccess
    ensures r == Some(TransactionAccountUnmatched) <==> t.account != account
    ensures r == Some(NotAllowedSeparateCancel) <==> t.account == account && t.amount != amount
    ensures r == Some(TooOldOrderToCancel) <==>
              t.account == account && t.amount == amount && t.transactedAt < yearAgo
    ensures r == Some(ExpiredTransaction) <==>
              t.account == account && t.amount == amount && yearAgo <= t.transactedAt
              && t.result == ExpiredAfterSuccess
  {
    if t.account != account then Some(TransactionAccountUnmatched)
    else if t.amount != amount then Some(NotAllowedSeparateCancel)
    else if t.transactedAt < yearAgo then Some(TooOldOrderToCancel)
    else if t.result == ExpiredAfterSuccess then Some(ExpiredTransaction)
    else None
  }

  // ---------------------------------------------------------------- recording

  /** saveTransaction: appends a record under a fresh id; the snapshot is the
      originating account's balance as it stands after the mutation. */
  function SaveTransaction(s: State, txId: TxId, kind: TransactionType, result: TransactionResultType,
                           userId: UserId, account: AccountId, amount: int,
                           receiverAccountNumber: string, receiverAccount: AccountId, now: Time): (r: Receipt)
    requires account < |s.accounts|
    requires txId !in s.txs
    ensures r.state.accounts == s.accounts
    ensures AppendedRecord(s, r.state, txId, r.record)
    ensures |r.state.txs| == |s.txs| + 1
    ensures r.record.balanceSnapshot == s.accounts[account].balance
    ensures r.record.kind == kind && r.record.result == result && r.record.transactedAt == now
    ensures r.record.user == userId && r.record.account == account && r.record.amount == amount
    ensures r.record.receiverAccountNumber == receiverAccountNumber && r.record.receiverAccount == receiverAccount
  {
    var rec := Transaction(kind, result, userId, account, receiverAccountNumber, receiverAccount,
                           amount, s.accounts[account].balance, now);
    Receipt(s.(txs := s.txs[txId := rec]), rec)
  }

  /** saveFailedUseTransaction: an audit record with result FAIL; no balance
      moves. Both accounts must exist. */
  function SaveFailedUseTransaction(s: State, userId: UserId, userAccountNumber: string,
                                    receiverAccountNumber: string, amount: int,
                                    txId: TxId, now: Time): (r: Result<Receipt>)
    requires txId !in s.txs
    ensures r.Ok? <==> Found(s, userAccountNumber) && Found(s, receiverAccountNumber)
    ensures r == Err(AccountNotFound) <==>
              Missing(s, userAccountNumber) || (Found(s, userAccountNumber) && Missing(s, receiverAccountNumber))
    ensures r == Err(NonUniqueResult) <==>
              Duplicated(s, userAccountNumber) || (Found(s, userAccountNumber) && Duplicated(s, receiverAccountNumber))
    ensures r.Ok? ==>
              && r.value.state.accounts == s.accounts
              && AppendedRecord(s, r.value.state, txId, r.value.record)
              && r.value.record == Transaction(Use, Fail, userId, IdOf(s, userAccountNumber),
                                               receiverAccountNumber, IdOf(s, receiverAccountNumber), amount,
                                               s.accounts[IdOf(s, userAccountNumber)].balance, now)
  {
    match FindByAccountNumber(s.accounts, userAccountNumber)
    case NoMatch => Err(AccountNotFound)
    case ManyMatches => Err(NonUniqueResult)
    case OneMatch(ui) =>
      match FindByAccountNumber(s.accounts, receiverAccountNumber)
      case NoMatch => Err(AccountNotFound)
      case ManyMatches => Err(NonUniqueResult)
      case OneMatch(ri) =>
        Ok(SaveTransaction(s, txId, Use, Fail, userId, ui, amount, s.accounts[ri].number, ri, now))
  }

  // ---------------------------------------------------------------- deposit, withdraw

  /** saveMoney (deposit): user, then account, then ownership and status;
      then the balance rises by the amount and a USE/SUCCESS record is kept. */
  function SaveMoney(s: State, userId: UserId, accountNumber: string, amount: int,
                     txId: TxId, now: Time): (r: Result<Receipt>)
    requires MinAmount <= amount <= MaxAmount
    requires txId !in s.txs
    ensures r == Err(UserNotFound) <==> userId !in s.users
    ensures r == Err(AccountNotFound) <==> userId in s.users && Missing(s, accountNumber)
    ensures r == Err(NonUniqueResult) <==> userId in s.users && Duplicated(s, accountNumber)
    ensures userId in s.users && Found(s, accountNumber) ==>
              var a := s.accounts[IdOf(s, accountNumber)];
              && (r == Err(UserAccountUnmatched) <==> a.owner != userId)
              && (r == Err(AccountAlreadyUnregistered) <==> a.owner == userId && a.status != Activated)
              && (r.Ok? <==> a.owner == userId && a.status == Activated)
    ensures r.Ok? ==>
              var i := IdOf(s, accountNumber);
              var st := r.value.state;
              && BalancesMoved(s.accounts, st.accounts, i, amount, i, 0)
              && AppendedRecord(s, st, txId, r.value.record)
              && r.value.record == Transaction(Use, Success, userId, i, accountNumber, i, amount,
                                               st.accounts[i].balance, now)
    ensures r.Ok? && BalancesNonNegative(s.accounts) ==> BalancesNonNegative(r.value.state.accounts)
  {
    if userId !in s.users then Err(UserNotFound)
    else
      match FindByAccountNumber(s.accounts, accountNumber)
      case NoMatch => Err(AccountNotFound)
      case ManyMatches => Err(NonUniqueResult)
      case OneMatch(i) =>
        match SaveValidateMoney(userId, s.accounts[i])
        case Some(e) => Err(e)
        case None =>
          match AccountEntity.SaveMoney(s.accounts[i], amount)
          case Err(e) => Err(e)
          case Ok(credited) =>
            var s1 := s.(accounts := s.accounts[i := credited]);
            Ok(SaveTransaction(s1, txId, Use, Success, userId, i, amount, credited.number, i, now))
  }

  /** useBalance (withdraw): the deposit checks, then enough balance; then
      the balance falls by the amount and a USE/SUCCESS record is kept. */
  function UseBalance(s: State, userId: UserId, accountNumber: string, amount: int,
                      txId: TxId, now: Time): (r: Result<Receipt>)
    requires MinAmount <= amount <= MaxAmount
    requires txId !in s.txs
    ensures r == Err(UserNotFound) <==> userId !in s.users
    ensures r == Err(AccountNotFound) <==> userId in s.users && Missing(s, accountNumber)
    ensures r == Err(NonUniqueResult) <==> userId in s.users && Duplicated(s, accountNumber)
    ensures userId in s.users && Found(s, accountNumber) ==>
              var a := s.accounts[IdOf(s, accountNumber)];
              && (r == Err(UserAccountUnmatched) <==> a.owner != userId)
              && (r == Err(AccountAlreadyUnregistered) <==> a.owner == userId && a.status != Activated)
              && (r == Err(AmountExceedBalance) <==>
                    a.owner == userId && a.status == Activated && a.balance < amount)
              && (r.Ok? <==> a.owner == userId && a.status == Activated && amount <= a.balance)
    ensures r.Ok? ==>
              var i := IdOf(s, accountNumber);
              var st := r.value.state;
              && BalancesMoved(s.accounts, st.accounts, i, -amount, i, 0)
              && AppendedRecord(s, st, txId, r.value.record)
              && r.value.record == Transaction(Use, Success, userId, i, accountNumber, i, amount,
                                               st.accounts[i].balance, now)
    ensures r.Ok? && BalancesNonNegative(s.accounts) ==> BalancesNonNegative(r.value.state.accounts)
  {
    if userId !in s.users then Err(UserNotFound)
    else
      match FindByAccountNumber(s.accounts, accountNumber)
      case NoMatch => Err(AccountNotFound)
      case ManyMatches => Err(NonUniqueResult)
      case OneMatch(i) =>
        match ValidateUseBalance(userId, s.accounts[i], amount)
        case Some(e) => Err(e)
        case None =>
          match AccountEntity.UseBalance(s.accounts[i], amount)
          case Err(e) => Err(e)
          case Ok(debited) =>
            var s1 := s.(accounts := s.accounts[i := debited]);
            Ok(SaveTransaction(s1, txId, Use, Success, userId, i, amount, debited.number, i, now))
  }

  // ---------------------------------------------------------------- transfers

  /** The debit of the sender followed by the credit of the receiver, the
      second applied on top of the first (they may be the same account). */
  function MoveMoney(accounts: seq<Account>, from: AccountId, to: AccountId, amount: int): (r: Result<seq<Account>>)
    requires from < |accounts| && to < |accounts|
    ensures r == Err(AmountExceedBalance) <==> amount > accounts[from].balance
    ensures r == Err(NotMinusMoney) <==> amount <= accounts[from].balance && amount < 0
    ensures r.Ok? <==> 0 <= amount <= accounts[from].balance
    ensures r.Ok? ==> BalancesMoved(accounts, r.value, from, -amount, to, amount)
    ensures r.Ok? && BalancesNonNegative(accounts) ==> BalancesNonNegative(r.value)
  {
    match AccountEntity.UseBalance(accounts[from], amount)
    case Err(e) => Err(e)
    case Ok(debited) =>
      var afterDebit := accounts[from := debited];
      match AccountEntity.SaveMoney(afterDebit[to], amount)
      case Err(e) => Err(e)
      case Ok(credited) => Ok(afterDebit[to := credited])
  }

  /** underMillionSendMoney: user, sender, receiver lookups, then an open
      receiver, then the move. The sender's owner and status are not
      checked. */
  function UnderMillionSendMoney(s: State, userId: UserId, senderAccountNumber: string,
                                 receiverAccountNumber: string, amount: int,
                                 txId: TxId, now: Time): (r: Result<Receipt>)
    requires txId !in s.txs
    ensures r == Err(UserNotFound) <==> userId !in s.users
    ensures r == Err(AccountNotFound) <==>
              && userId in s.users
              && (Missing(s, senderAccountNumber) || (Found(s, senderAccountNumber) && Missing(s, receiverAccountNumber)))
    ensures r == Err(NonUniqueResult) <==>
              && userId in s.users
              && (Duplicated(s, senderAccountNumber)
                  || (Found(s, senderAccountNumber) && Duplicated(s, receiverAccountNumber)))
    ensures userId in s.users && Found(s, senderAccountNumber) && Found(s, receiverAccountNumber) ==>
              var sender := s.accounts[IdOf(s, senderAccountNumber)];
              var receiver := s.accounts[IdOf(s, receiverAccountNumber)];
              && (r == Err(ReceiverAccountUnregistered) <==> receiver.status != Activated)
              && (r == Err(AmountExceedBalance) <==> receiver.status == Activated && amount > sender.balance)
              && (r == Err(NotMinusMoney) <==>
                    receiver.status == Activated && amount <= sender.balance && amount < 0)
              && (r.Ok? <==> receiver.status == Activated && 0 <= amount <= sender.balance)
    ensures r.Ok? ==>
              var si := IdOf(s, senderAccountNumber);
              var ri := IdOf(s, receiverAccountNumber);
              var st := r.value.state;
              && BalancesMoved(s.accounts, st.accounts, si, -amount, ri, amount)
              && AppendedRecord(s, st, txId, r.value.record)
              && r.value.record == Transaction(Use, Success, userId, si, receiverAccountNumber, ri, amount,
                                               st.accounts[si].balance, now)
    ensures r.Ok? && BalancesNonNegative(s.accounts) ==> BalancesNonNegative(r.value.state.accounts)
  {
    if userId !in s.users then Err(UserNotFound)
    else
      match FindByAccountNumber(s.accounts, senderAccountNumber)
      case NoMatch => Err(AccountNotFound)
      case ManyMatches => Err(NonUniqueResult)
      case OneMatch(si) =>
        match FindByAccountNumber(s.accounts, receiverAccountNumber)
        case NoMatch => Err(AccountNotFound)
        case ManyMatches => Err(NonUniqueResult)
        case OneMatch(ri) =>
          match ValidateReceiver(s.accounts[ri])
          case Some(e) => Err(e)
          case None =>
            match MoveMoney(s.accounts, si, ri, amount)
            case Err(e) => Err(e)
            case Ok(moved) =>
              var s1 := s.(accounts := moved);
              Ok(SaveTransaction(s1, txId, Use, Success, userId, si, amount, moved[ri].number, ri, now))
  }

  /** overMillionSendMoney: the same lookups, then the identity of the caller
      is re-checked before anything else; once it passes, the call behaves
      exactly as the simple transfer. */
  function OverMillionSendMoney(s: State, userId: UserId, senderAccountNumber: string,
                                userName: string, userBirthDay: Option<Date>, userEmail: string,
                                passwordMatches: bool, receiverAccountNumber: string, amount: int,
                                txId: TxId, now: Time): (r: Result<Receipt>)
    requires LargeTransferThreshold <= amount <= MaxAmount
    requires txId !in s.txs
    ensures r == Err(UserNotFound) <==> userId !in s.users
    ensures r == Err(AccountNotFound) <==>
              && userId in s.users
              && (Missing(s, senderAccountNumber) || (Found(s, senderAccountNumber) && Missing(s, receiverAccountNumber)))
    ensures r == Err(NonUniqueResult) <==>
              && userId in s.users
              && (Duplicated(s, senderAccountNumber)
                  || (Found(s, senderAccountNumber) && Duplicated(s, receiverAccountNumber)))
    ensures userId in s.users && Found(s, senderAccountNumber) && Found(s, receiverAccountNumber) ==>
              var check := ValidateUserInfo(s.users[userId], userName, userBirthDay, userEmail, passwordMatches);
              && (check.Some? ==> r == Err(check.value))
              && (check.None? ==>
                    r == UnderMillionSendMoney(s, userId, senderAccountNumber, receiverAccountNumber, amount, txId, now))
  {
    if userId !in s.users then Err(UserNotFound)
    else
      match FindByAccountNumber(s.accounts, senderAccountNumber)
      case NoMatch => Err(AccountNotFound)
      case ManyMatches => Err(NonUniqueResult)
      case OneMatch(si) =>
        match FindByAccountNumber(s.accounts, receiverAccountNumber)
        case NoMatch => Err(AccountNotFound)
        case ManyMatches => Err(NonUniqueResult)
        case OneMatch(ri) =>
          match ValidateUserInfo(s.users[userId], userName, userBirthDay, userEmail, passwordMatches)
          case Some(e) => Err(e)
          case None =>
            match ValidateReceiver(s.accounts[ri])
            case Some(e) => Err(e)
            case None =>
              match MoveMoney(s.accounts, si, ri, amount)
              case Err(e) => Err(e)
              case Ok(moved) =>
                var s1 := s.(accounts := moved);
                Ok(SaveTransaction(s1, txId, Use, Success, userId, si, amount, moved[ri].number, ri, now))
  }

  // ---------------------------------------------------------------- cancellation

  /** The receiver balance the reversal debits: the sender credit comes
      first, so it already counts when both are the same account. */
  function ReceiverBalanceAtDebit(s: State, ui: AccountId, ri: AccountId, amount: int): int
    requires ui < |s.accounts| && ri < |s.accounts|
  {
    s.accounts[ri].balance + (if ri == ui then amount else 0)
  }

  /** cancelBalance: user, record, sender and receiver lookups; the record
      checks; then the sender is credited, the receiver debited, the
      original record marked EXPRIED_AFTER_SUCCESS, and a CANCEL/SUCCESS
      record kept. The receiver is not matched against the original
      record. */
  function CancelBalance(s: State, userId: UserId, transactionId: TxId, userAccountNumber: string,
                         receiverAccountNumber: string, amount: int,
                         newTxId: TxId, now: Time, yearAgo: Time): (r: Result<Receipt>)
    requires MinAmount <= amount <= MaxAmount
    requires newTxId !in s.txs
    ensures r == Err(UserNotFound) <==> userId !in s.users
    ensures r == Err(TransactionNotFound) <==> userId in s.users && transactionId !in s.txs
    ensures r == Err(AccountNotFound) <==>
              && userId in s.users && transactionId in s.txs
              && (Missing(s, userAccountNumber) || (Found(s, userAccountNumber) && Missing(s, receiverAccountNumber)))
    ensures r == Err(NonUniqueResult) <==>
              && userId in s.users && transactionId in s.txs
              && (Duplicated(s, userAccountNumber)
                  || (Found(s, userAccountNumber) && Duplicated(s, receiverAccountNumber)))
    ensures userId in s.users && transactionId in s.txs
            && Found(s, userAccountNumber) && Found(s, receiverAccountNumber) ==>
              var ui := IdOf(s, userAccountNumber);
              var ri := IdOf(s, receiverAccountNumber);
              var check := ValidateCancelBalance(s.txs[transactionId], ui, amount, yearAgo);
              && (check.Some? ==> r == Err(check.value))
              && (check.None? ==>
                    && (r == Err(AmountExceedBalance) <==> ReceiverBalanceAtDebit(s, ui, ri, amount) < amount)
                    && (r.Ok? <==> amount <= ReceiverBalanceAtDebit(s, ui, ri, amount)))
    ensures r.Ok? ==>
              var ui := IdOf(s, userAccountNumber);
              var ri := IdOf(s, receiverAccountNumber);
              var st := r.value.state;
              && transactionId in s.txs
              && BalancesMoved(s.accounts, st.accounts, ui, amount, ri, -amount)
              && st.users == s.users
              && st.txs == s.txs[transactionId := s.txs[transactionId].(result := ExpiredAfterSuccess)]
                                [newTxId := r.value.record]
              && r.value.record == Transaction(Cancel, Success, userId, ui, receiverAccountNumber, ri, amount,
                                               st.accounts[ui].balance, now)
    ensures r.Ok? && BalancesNonNegative(s.accounts) ==> BalancesNonNegative(r.value.state.accounts)
  {
    if userId !in s.users then Err(UserNotFound)
    else if transactionId !in s.txs then Err(TransactionNotFound)
    else
      match FindByAccountNumber(s.accounts, userAccountNumber)
      case NoMatch => Err(AccountNotFound)
      case ManyMatches => Err(NonUniqueResult)
      case OneMatch(ui) =>
        match FindByAccountNumber(s.accounts, receiverAccountNumber)
        case NoMatch => Err(AccountNotFound)
        case ManyMatches => Err(NonUniqueResult)
        case OneMatch(ri) =>
          var original := s.txs[transactionId];
          match ValidateCancelBalance(original, ui, amount, yearAgo)
          case Some(e) => Err(e)
          case None =>
            match AccountEntity.CancelBalance(s.accounts[ui], amount)
            case Err(e) => Err(e)
            case Ok(credited) =>
              var afterCredit := s.accounts[ui := credited];
              match AccountEntity.UseBalance(afterCredit[ri], amount)
              case Err(e) => Err(e)
              case Ok(debited) =>
                var s1 := State(s.users, afterCredit[ri := debited],
                                s.txs[transactionId := original.(result := ExpiredAfterSuccess)]);
                Ok(SaveTransaction(s1, newTxId, Cancel, Success, userId, ui, amount, receiverAccountNumber, ri, now))
  }

  // ---------------------------------------------------------------- history window

  /** The interval of timestamps a date-range query covers. */
  datatype Window = Window(startOfDay: Time, endOfDay: Time)

  function DayOf(t: Time): Date {
    t / SecondsPerDay
  }

  /** getValidateDate: from 00:00:00 of the first day to 23:59:59 of the
      last; refused unless the start lies strictly before the end, which
      happens exactly when the first day is after the last. The request
      does not require either date, and a missing one makes `atStartOfDay`
      throw a NullPointerException. */
  function GetValidateDate(firstDate: Option<Date>, lastDate: Option<Date>): (r: Result<Window>)
    ensures r == Err(NullPointer) <==> firstDate.None? || lastDate.None?
    ensures r.Ok? <==> firstDate.Some? && lastDate.Some? && firstDate.value <= lastDate.value
    ensures r == Err(WrongDate) <==> firstDate.Some? && lastDate.Some? && firstDate.value > lastDate.value
    ensures r.Ok? ==> forall t :: r.value.startOfDay <= t <= r.value.endOfDay <==>
                                  firstDate.value <= DayOf(t) <= lastDate.value
  {
    match (firstDate, lastDate)
    case (None, _) => Err(NullPointer)
    case (_, None) => Err(NullPointer)
    case (Some(first), Some(last)) =>
      var startOfDay := first * SecondsPerDay;
      var endOfDay := (last + 1) * SecondsPerDay - 1;
      if startOfDay > endOfDay || startOfDay == endOfDay then Err(WrongDate)
      else Ok(Window(startOfDay, endOfDay))
  }
}

=== FILE: types.dfy ===
/** The entities of the ledger core: users, accounts, transaction records,
    the persisted state, and the error codes the services raise. */
module Types {

  /** Identity of a user row. */
  type UserId = nat

  /** Identity of an account row. Account ids are generated in creation
      order, so the model uses the account's position in State.accounts. */
  type AccountId = nat

  /** The externally visible transaction identifier (a UUID without dashes). */
  type TxId = string

  /** A LocalDateTime, as whole seconds from a fixed epoch. */
  type Time = int

  /** A LocalDate, as whole days from the same epoch. */
  type Date = int

  const SecondsPerDay: int := 86400

  datatype Option<T> = None | Some(value: T)

  /** A service outcome: a value, or the error code of the exception raised. */
  datatype Result<T> = Ok(value: T) | Err(error: ErrorCode)

  /** Every way a ledger call can fail. Apart from the last three, each is
      thrown as a GlobalException carrying the code of the same name in
      upper snake case (UserNotFound is USER_NOT_FOUND, and so on). The
      last three are runtime exceptions that are not GlobalExceptions:
      NumberFormat is the NumberFormatException of Integer.parseInt,
      NonUniqueResult the IncorrectResultSizeDataAccessException a
      single-result repository query raises when two rows match, and
      NullPointer the NullPointerException of a date method called on, or
      with, a missing date. */
  datatype ErrorCode =
    | UserNotFound
    | AccountNotFound
    | TransactionNotFound
    | UserAccountUnmatched
    | AccountAlreadyUnregistered
    | AmountExceedBalance
    | NotMinusMoney
    | InvalidRequest
    | UnmatchedUser
    | UnmatchedBirthday
    | UnmatchedEmail
    | UnmatchedPassword
    | ReceiverAccountUnregistered
    | TransactionAccountUnmatched
    | NotAllowedSeparateCancel
    | TooOldOrderToCancel
    | ExpiredTransaction
    | WrongDate
    | Max5LimitAccounts
    | NumberFormat
    | NonUniqueResult
    | NullPointer

  datatype AccountStatus = Activated | Unregistered

  datatype TransactionType = Use | Cancel

  /** ExpiredAfterSuccess is spelled EXPRIED_AFTER_SUCCESS in the source. */
  datatype TransactionResultType = Success | Fail | ExpiredAfterSuccess

  /** The identity fields the large-transfer tier re-checks. Sign-up does
      not require a birthday, so it may be missing (a null LocalDate). */
  datatype User = User(name: string, birthDay: Option<Date>, email: string)

  datatype Account = Account(
    number: string,
    owner: UserId,
    status: AccountStatus,
    balance: int,
    registeredAt: Time,
    unregisteredAt: Option<Time>)

  /** One row of the transaction history. `account` is the originating
      account, `receiverAccount` the counterparty (the account itself for
      deposits and withdrawals). */
  datatype Transaction = Transaction(
    kind: TransactionType,
    result: TransactionResultType,
    user: UserId,
    account: AccountId,
    receiverAccountNumber: string,
    receiverAccount: AccountId,
    amount: int,
    balanceSnapshot: int,
    transactedAt: Time)

  /** What the repositories hold. */
  datatype State = State(
    users: map<UserId, User>,
    accounts: seq<Account>,
    txs: map<TxId, Transaction>)

  /** A committed service call: the new state and the record it appended. */
  datatype Receipt = Receipt(state: State, record: Transaction)
}
